=== FILE: README.md ===
# Lobo trade-activity detector and stream runner, in Dafny

This project models two pieces of sequential decision logic from the Lobo
market-data pipeline.

**The trade-activity analyzer** (`TradeActivityAnalyzer`) takes one trade
aggregate at a time. The aggregate holds buy and sell volume, their moving
averages, an average price and a trade count. The analyzer does three things:

- It decides whether the aggregate is a volume spike, a buy/sell imbalance,
  or a threshold breach.
- When it is, it builds one spike event. The event carries a buy/sell ratio,
  a direction and a single reason chosen by priority.
- It appends the event to an audit log. Only after that does it hand the
  event to every registered callback, in registration order.

**The combined stream runner** (`CombinedStreamRunner`) keeps the state it
derives from its collaborators and controls their lifecycle:

- It caches the latest trade aggregate.
- It holds an activity-spike flag with a one-second time-to-live. The flag is
  expired lazily when it is read, with no timer.
- It builds the feature event it sends to the stream merger. The event is a
  right-biased dict merge: the runner's own fields, then the near-price
  volumes, then the cached aggregate.
- It wires callbacks, with the inference hook only when a model loaded.
- It guards `run` and `stop` with a running flag. `stop` shuts down in a
  fixed order: sources, then merger, then tasks.

The order book, trades stream, stream merger, signal detector and model
runner are collaborators whose code is not part of this model. The order book
is seen only through an `OrderBookView` record: mid price, imbalance, bid and
ask volume, near-price volumes and update timestamp. Every call the runner makes
into the other collaborators after constructing them is recorded as an
`Action` in a trace, in order; their construction, and the `symbol` they
are built for, are not modelled. Python floats
are exact `real`s. The wall clock (`time.time()`) is an explicit parameter.

A spike event's constant `"type": "trade_activity_spike"` entry is the
`kind` member of `SpikeEvent`.

A spike at time 0.0 never raises the flag, because the runner tests the held
stamp for truthiness (`ActivityFlag.ZeroStampNeverRaisesFlag`).

Files and modules:

- `common.dfy` — `Common`: the `Option` type, dict values (`Value`), and Python
  truthiness of an optional number.
- `trade_activity.dfy` — `TradeActivity`: the analyzer.
- `trade_activity_props.dfy` — `TradeActivityProps`: detection checked against
  a division-free reference set of conditions, with a priority rank.
- `activity_flag.dfy` — `ActivityFlag`: the TTL flag as a state machine over
  the held spike timestamp. Its trace lemmas compare lazy expiry with a timer.
- `runner.dfy` — `Runner`: the runner's state, its handlers and its lifecycle.
- `runner_props.dfy` — `RunnerProps`: lemmas that relate several runner calls.

## Model

| member | source | states |
|---|---|---|
| TradeActivity.Init | Desktop/Lobo/lob_analyzer/analyzer/trade_activity_analyzer.py:13-29 | a new analyzer has exactly the given thresholds, switches and save path (`Defaults` holds the documented defaults 10.0, 2.0, 0.5, 1.2, logging on, "activity_spikes.jsonl"), no callbacks and nothing appended |
| TradeActivity.OnActivity | Desktop/Lobo/lob_analyzer/analyzer/trade_activity_analyzer.py:35-36 | registering a callback puts it behind all earlier ones, keeping their order, the thresholds and the log |
| TradeActivity.BuySellRatio | Desktop/Lobo/lob_analyzer/analyzer/trade_activity_analyzer.py:55 | with sell volume, ratio times sell gives back buy; without it, the sentinel 1,000,000 if there is buy volume, else 1.0; the ratio exceeds 1 exactly when buy exceeds a positive sell, or buy is positive with no sell |
| TradeActivity.IsSpike | Desktop/Lobo/lob_analyzer/analyzer/trade_activity_analyzer.py:49-53 | a spike holds exactly when the baseline is positive and the total exceeds multiplier times the baseline (no division) |
| TradeActivity.DirectionOf | Desktop/Lobo/lob_analyzer/analyzer/trade_activity_analyzer.py:63 | the direction is "buy" exactly when the ratio exceeds 1, and "sell" otherwise, including a ratio of exactly 1 |
| TradeActivity.ReasonOf | Desktop/Lobo/lob_analyzer/analyzer/trade_activity_analyzer.py:75 | the single reason is spike iff the spike test holds, imbalance iff there is no spike but an imbalance, and volume_exceeded iff neither holds |
| TradeActivity.Classify | Desktop/Lobo/lob_analyzer/analyzer/trade_activity_analyzer.py:38-76 | zero total volume yields nothing; an event is produced iff spike, imbalance or volume breach holds; the event echoes the input volumes, the baseline, the `ts` entry whatever it holds (or the clock), and avg_price and trade_count (0 when absent); its ratio times a positive sell gives back buy, and without sell volume it is 1,000,000 if there is buy volume, else 1.0; direction is "buy" iff buy exceeds a positive sell or buy is positive with no sell; reason is spike iff the spike test holds, imbalance iff no spike but imbalance |
| TradeActivity.Notifications | Desktop/Lobo/lob_analyzer/analyzer/trade_activity_analyzer.py:81-82 | one notification per callback, the i-th going to the i-th registered callback with the same event |
| TradeActivity.ProcessEvent | Desktop/Lobo/lob_analyzer/analyzer/trade_activity_analyzer.py:38-82 | with no detection nothing changes and no effect occurs; on detection with a save path, the log grows by exactly the event, the first effect is that append, and callback i then receives the event at position 1 + i; with an empty path the log is untouched; every append precedes every notification; thresholds and callbacks never change |
| TradeActivity.StepCarriesEvent | Desktop/Lobo/lob_analyzer/analyzer/trade_activity_analyzer.py:77-82 | on detection, every effect of the step carries the detected event, and a callback is notified exactly when it is registered |
| TradeActivityProps.ImbalanceWithoutDivision | Desktop/Lobo/lob_analyzer/analyzer/trade_activity_analyzer.py:55-59 | the imbalance test on the ratio agrees with the test written on volumes: buy > high * sell or buy < low * sell when sell is positive, the sentinel or 1.0 otherwise |
| TradeActivityProps.ClassifyPicksHighestPriority | Desktop/Lobo/lob_analyzer/analyzer/trade_activity_analyzer.py:49-75 | an event is produced iff the total is non-zero and the reference set of conditions is non-empty; its one reason belongs to that set and has the best priority in it |
| TradeActivityProps.EqualVolumesReportSell | Desktop/Lobo/lob_analyzer/analyzer/trade_activity_analyzer.py:63 | equal buy and sell volumes report direction "sell" |
| TradeActivityProps.BalancedBurstReportsVolume | Desktop/Lobo/lob_analyzer/analyzer/trade_activity_analyzer.py:40-82 | with the default thresholds, 50 buy and 50 sell with no baseline give exactly one logged event: ratio 1.0, direction sell, reason volume_exceeded; it is appended first, then one notification per callback |
| TradeActivityProps.ZeroVolumeIsSilent | Desktop/Lobo/lob_analyzer/analyzer/trade_activity_analyzer.py:41-46 | zero total volume leaves the analyzer unchanged with no log append and no callback |
| ActivityFlag.Read | Desktop/Lobo/lob_analyzer/runner.py:100-106 | the flag is 0 or 1; it is 1 iff the held stamp is present, non-zero and now < stamp + ttl; reading 1 keeps the stamp, reading 0 clears it |
| ActivityFlag.Flags | Desktop/Lobo/lob_analyzer/runner.py:100-106 | the readings taken at successive updates with no spike in between: one per clock reading, each 0 or 1 |
| ActivityFlag.ClearedStaysDown | Desktop/Lobo/lob_analyzer/runner.py:103-106 | with no held stamp, every later reading is 0 and the stamp stays cleared until the next spike |
| ActivityFlag.FlagsNonIncreasing | Desktop/Lobo/lob_analyzer/runner.py:102-106 | between two spikes, for any clock readings, the flags form a run of ones followed by a run of zeros |
| ActivityFlag.LazyExpiryMatchesTimer | Desktop/Lobo/lob_analyzer/runner.py:101-106 | for a non-zero spike stamp and a clock that never runs backwards, lazy expiry reads exactly what a plain timer started at the spike for ttl seconds would show (a zero stamp is covered by ZeroStampNeverRaisesFlag) |
| ActivityFlag.BackwardsClockDiffersFromTimer | Desktop/Lobo/lob_analyzer/runner.py:101-106 | a clock that runs backwards after expiry does not raise the flag again, unlike a timer |
| ActivityFlag.ZeroStampNeverRaisesFlag | Desktop/Lobo/lob_analyzer/runner.py:103 | a spike stamped exactly 0.0 never raises the flag, at any clock readings |
| Runner.Init | Desktop/Lobo/lob_analyzer/runner.py:41-61 | a model is present iff a non-empty path was given and loading succeeded, and only then is it assigned to the merger; not running, no held stamp, empty cache, no tasks, TTL 1.0, an analyzer with default thresholds and logging off |
| Runner.Registrations | Desktop/Lobo/lob_analyzer/runner.py:63-85 | every registration goes on the collaborator its handler belongs to; each of the six always-wired handlers (order-book handler, signal detector, signal handler, raw trades to the merger, aggregate cache, analyzer) is registered exactly once; the order-book handler comes before the signal detector and the aggregate cache before the analyzer; the inference hook is registered iff a model is present; the spike handler is not among them |
| Runner.SetupCallbacks | Desktop/Lobo/lob_analyzer/runner.py:63-85 | the trace grows by exactly those registrations; the spike handler is added behind the analyzer's existing callbacks; the inference hook is among the new registrations iff a model is present; every other field is untouched |
| Runner.HandleTradeAggregate | Desktop/Lobo/lob_analyzer/runner.py:87-89 | the cache holds exactly the new aggregate's keys and values, so nothing of the old one survives; all else is unchanged |
| Runner.HandleActivitySpike | Desktop/Lobo/lob_analyzer/runner.py:124-128 | the held stamp becomes the spike's timestamp when it is a number, and nothing (None) when it is a falsy non-number; all else is unchanged |
| Runner.HeldStamp | Desktop/Lobo/lob_analyzer/runner.py:103-106 | a numeric spike stamp is held as that number; a falsy one as nothing; the held value is truthy for the flag check exactly when the stamp itself is truthy |
| Runner.FeatureEvent | Desktop/Lobo/lob_analyzer/runner.py:108-117 | the event's keys are the union of the three sources; a cached-aggregate key carries the aggregate's value, a near-price key not in the aggregate carries its own value, and a fixed key keeps its computed value only when neither later map has it |
| Runner.FixedFields | Desktop/Lobo/lob_analyzer/runner.py:108-114 | the handler's own fields are exactly the six fixed keys: ts from the order book's last update, the mid price, imbalance, bid and ask volume, and the flag under activity_spike |
| Runner.HandleOrderbookUpdate | Desktop/Lobo/lob_analyzer/runner.py:91-118 | a falsy mid price (absent or 0) changes nothing, including the held stamp; otherwise exactly one feature event is appended to the merger calls, built from the flag reading, the near-price volumes and the cached aggregate; the held stamp becomes the reading's kept stamp; nothing else changes |
| Runner.HandleInference | Desktop/Lobo/lob_analyzer/runner.py:130-143 | without a model nothing happens; with one, exactly one prediction call on the record is recorded |
| Runner.Run | Desktop/Lobo/lob_analyzer/runner.py:145-158 | while running, nothing changes; otherwise the runner is running, the registrations are recorded and then the three tasks are started in order, and the spike handler is added to the analyzer; the held stamp, the cached aggregate, the model flag, the TTL and the analyzer's thresholds and log are kept, so a restart sees the stale stamp and cache |
| Runner.Cancellations | Desktop/Lobo/lob_analyzer/runner.py:187-189 | only tasks that have not finished are cancelled, every such task is cancelled, and every two cancellations name tasks at increasing positions of the task list, so the list order is kept and no task is cancelled twice unless it is listed twice; `run` always builds three distinct tasks |
| Runner.ShutdownSteps | Desktop/Lobo/lob_analyzer/runner.py:171-191 | shutdown begins with clearing the running flag, stopping the order book, stopping the trades stream and stopping the merger; the middle steps are exactly the cancellations of the unfinished tasks, in list order; it ends with waiting for all tasks |
| Runner.Stop | Desktop/Lobo/lob_analyzer/runner.py:166-192 | when not running, nothing changes and no step is recorded; otherwise the runner stops running and the shutdown steps are appended to the trace; every other field, including the tasks, the held stamp, the cache and the analyzer, is untouched |
| Runner.ReadAggregate | Desktop/Lobo/lob_analyzer/analyzer/trade_activity_analyzer.py:40-51 | the analyzer's view of the aggregate dict: ts is the dict's entry, whatever it holds, or absent; buy and sell volume are the dict's numbers, or 0 when absent; when the total is non-zero the baseline is the sum of the two means (0 when absent); avg_price and trade_count are the dict's entries, or 0 |
| Runner.DispatchHoldsSpike | Desktop/Lobo/lob_analyzer/analyzer/trade_activity_analyzer.py:81-82 | when every notification carries the same event, dispatching holds that event's stamp iff the spike handler is among the notified, and otherwise leaves the held stamp alone |
| Runner.Dispatch | Desktop/Lobo/lob_analyzer/analyzer/trade_activity_analyzer.py:81-82 | running the notifications against the runner changes only the held stamp, and a changed stamp is the stamp of an event delivered to the spike handler |
| Runner.AnalyzerStepReachesHandler | Desktop/Lobo/lob_analyzer/runner.py:79 | every event an analyzer step hands out has a readable stamp; afterwards the held stamp is the emitted event's stamp iff an event was emitted and the spike handler is registered on the analyzer |
| Runner.DeliverTradeAggregate | Desktop/Lobo/lob_analyzer/runner.py:75-79 | an aggregate reaching both registered handlers, cache first, replaces the cache; if the analyzer emits and the spike handler is registered, the held stamp becomes the event's stamp; with a save path the log grows by the event, with an empty one it is unchanged; with no emission the stamp and the analyzer are unchanged; the thresholds, the callbacks and every other runner field are always kept; this is the delivery for one registration of each handler, as after a single run |
| Runner.AnalyzeAggregate | Desktop/Lobo/lob_analyzer/runner.py:76-79 | the analyzer's registration alone: without an emission nothing changes; with one, the held stamp becomes the event's stamp iff the spike handler is registered, and the log grows by the event iff a save path is set; the cache, the thresholds and the callbacks are kept |
| Runner.AggregateHandlers | Desktop/Lobo/lob_analyzer/runner.py:75-76 | a handler is on the trades stream's aggregate list iff the trace holds its registration on that list |
| Runner.AggregateHandlersAppend | Desktop/Lobo/lob_analyzer/runner.py:75-76 | the aggregate list of a longer trace is the earlier list followed by the handlers the later actions register |
| Runner.DeliverTo | Desktop/Lobo/lob_analyzer/runner.py:75-76 | one aggregate handed to every handler on a list, in order: the cache holds it iff the cache handler is listed; without the analyzer listed, the analyzer and the held stamp are untouched; the thresholds, the callbacks and every other runner field are kept |
| Runner.DeliverToAppend | Desktop/Lobo/lob_analyzer/runner.py:75-76 | delivering to two lists in a row is delivering to their concatenation |
| Runner.SingleRegistrationDelivers | Desktop/Lobo/lob_analyzer/runner.py:75-76 | handing an aggregate to the list cache, analyzer is `DeliverTradeAggregate` |

| RunnerProps.RunIsIdempotent | Desktop/Lobo/lob_analyzer/runner.py:147-152 | a second run changes nothing, so callbacks are registered once per start |
| RunnerProps.StopIsIdempotent | Desktop/Lobo/lob_analyzer/runner.py:168-169 | a second stop changes nothing and records no shutdown step |
| RunnerProps.ShutdownOrder | Desktop/Lobo/lob_analyzer/runner.py:172-191 | the merger is stopped after the running flag is cleared and after both sources are stopped, before any task is cancelled; waiting for the tasks comes last |
| RunnerProps.StopCancelsUnfinished | Desktop/Lobo/lob_analyzer/runner.py:187-189 | a task is cancelled during shutdown iff it was started and has not finished |
| RunnerProps.InferenceHookIffModel | Desktop/Lobo/lob_analyzer/runner.py:56-85 | after construction and run, the inference hook is registered iff a non-empty model path loaded; without a model, inference is a no-op |
| RunnerProps.RestartRegistersAgain | Desktop/Lobo/lob_analyzer/runner.py:145-152 | run, stop, run wires the spike handler onto the analyzer twice, so each later spike reaches it twice |
| RunnerProps.RegisteredAggregateHandlers | Desktop/Lobo/lob_analyzer/runner.py:75-76 | one wiring puts exactly the cache and then the analyzer on the aggregate list, with or without a model |
| RunnerProps.RunAddsAggregateHandlers | Desktop/Lobo/lob_analyzer/runner.py:145-152 | a run from a stopped state adds the cache and then the analyzer behind the handlers already on the aggregate list |
| RunnerProps.StopKeepsAggregateHandlers | Desktop/Lobo/lob_analyzer/runner.py:166-192 | stop unregisters nothing: the aggregate list is unchanged |
| RunnerProps.RestartRegistersAggregateHandlersTwice | Desktop/Lobo/lob_analyzer/runner.py:145-152 | after run, stop, run the aggregate list is cache, analyzer, cache, analyzer |
| RunnerProps.DoubledHandlersLogTwice | Desktop/Lobo/lob_analyzer/runner.py:75-76 | an aggregate the analyzer reports, handed to that doubled list with a save path set, is appended to the log twice |
| RunnerProps.RestartAnalyzesTwice | Desktop/Lobo/lob_analyzer/runner.py:145-152 | after run, stop, run, an aggregate the analyzer reports is analyzed twice, so the runner's analyzer log holds the event twice |

| RunnerProps.LatestAggregateWins | Desktop/Lobo/lob_analyzer/runner.py:87-89 | caching two aggregates in turn is the same as caching only the second |
| RunnerProps.FeatureEventCarriesLatestAggregate | Desktop/Lobo/lob_analyzer/runner.py:108-117 | after caching an aggregate, the next feature event has every key of it with its value, and no key from an earlier aggregate that no current source defines |
| RunnerProps.FalsyMidKeepsSpikeStamp | Desktop/Lobo/lob_analyzer/runner.py:93-95 | an update whose mid price is absent or 0 leaves both the held stamp and the merger calls unchanged, whatever the clock reads |
| RunnerProps.SpikeRaisesNextFlag | Desktop/Lobo/lob_analyzer/runner.py:100-128 | end to end: once the analyzer emits for an aggregate, the next feature event reports activity_spike 1 iff the spike's stamp is a non-zero number younger than the TTL; reporting 0 clears the held stamp |
| RunnerProps.NullStampClearsFlag | Desktop/Lobo/lob_analyzer/runner.py:100-128 | an aggregate with "ts": None that the analyzer reports leaves no held stamp, whatever was held before, and the next feature event reports activity_spike 0 without error |
| RunnerProps.ZeroVolumeOnlyCaches | Desktop/Lobo/lob_analyzer/analyzer/trade_activity_analyzer.py:41-46 | an aggregate with zero total volume only replaces the cache, whatever its means hold; a dict with `None` as a mean and zero volumes is accepted |
| RunnerProps.UpdateReportsFlag | Desktop/Lobo/lob_analyzer/runner.py:100-114 | an update with a truthy mid price appends exactly one feature event, whose activity_spike entry is the flag read at that time |
| RunnerProps.ReplayReportsFlags | Desktop/Lobo/lob_analyzer/runner.py:100-118 | over any run of updates with truthy mid prices, the i-th emitted event reports the i-th lazily expired flag reading; one event per update; the final held stamp is the one the readings leave |

## Left out

- Logging: `setup_logging`, the `enable_logging` switch, `_handle_signal` and every `logger` call except the success log of `_handle_inference` are output only. `_handle_signal` only logs, so it is not modelled.
- Runner.HandleInference: the success log at Desktop/Lobo/lob_analyzer/runner.py:137-141 reads the prediction's "direction" and "confidence" and the record's "ts", formatting the last two with `:.3f`. After the prediction call it can raise KeyError, TypeError or ValueError, for instance when a cached aggregate's `"ts": None` overrides the record's stamp. Those errors are not modelled; the model records the prediction call and nothing after it.
- Audit file handling: creating the file when it is missing and the JSON-lines encoding are left out. `log` holds the events this analyzer appended. Lines already in the file are not modelled.
- Concurrency: asyncio tasks, `await`, `gather`, the keep-alive `while self._running` loop in `run`, and the signal handler are not modelled. Starting, stopping, cancelling and awaiting are steps in a trace.
- Runner.ShutdownSteps: the two source stops run concurrently under `gather`. The model records them in argument order, and errors from them are not modelled; the source ignores those errors with `return_exceptions`.
- Collaborators: the order book, trades stream, stream merger, signal detector and model runner are not part of this model. Mid-price computation, imbalance, near-price volume, forward labelling and prediction are not modelled. The order book's readings are inputs, and calls into the merger and the model are recorded actions.
- Runner.DeliverTradeAggregate: models one registration of each aggregate handler. It assumes the trades stream notifies its handlers in registration order (cache first, then analyzer); the trades stream's code is not part of this model. After a restart each handler is registered twice; `Runner.DeliverTo` over `Runner.AggregateHandlers` is the delivery for that case, and `RunnerProps.RestartAnalyzesTwice` shows the doubled analysis.
- Runner.HandleOrderbookUpdate: after a restart the order book holds this handler twice, so each update reaches it twice and two feature events are sent. The model delivers one update to one registration; the doubled delivery is not modelled. The same holds for `Runner.HandleInference` when a model is present.
- Runner.ReadAggregate: requires numbers under "buy_volume" and "sell_volume", and under "buy_mean" and "sell_mean" when the total volume is non-zero; in those cases the analyzer adds them up and the source raises a TypeError on anything else. With zero total volume the means are never read and may hold anything. The "ts" entry is taken as it is.
- Runner.HandleActivitySpike: requires a stamp that is a number or falsy (None, ""). A non-empty string under "ts" is stored by the source and raises a TypeError at the next flag check; that error path is not modelled.
- Floating point: volumes, ratios and times are exact reals. IEEE rounding is not modelled.
- The wall clock is a parameter: `clock` in the analyzer, `now` in the order-book handler.
- TradeActivity.ProcessEvent: exceptions are not modelled. If the audit append raises, no callback runs; if a callback raises, the later callbacks do not run. The model always notifies every callback.
- Runner.ShutdownSteps: `merger.stop()` is awaited without `return_exceptions`. If it raises, no task is cancelled and the final wait does not happen. The model always records both. The same holds for `Runner.Stop`.
- Runner.HandleTradeAggregate: the source caches the caller's dict by reference, so a producer that later mutates that dict changes the cache. The model caches an immutable copy.
- Runner.FeatureEvent: the feature event is a `map`, so the insertion order of the dict's keys is not modelled.

=== FILE: activity_flag.dfy ===
/** The runner's "recent activity spike" flag: a held spike timestamp that is
    read, and expired lazily, each time an order-book feature event is built.
    No timer is involved. */
module ActivityFlag {
  import opened Common

  /** Flag value and the timestamp held afterwards. */
  datatype Check = Check(flag: int, kept: Option<real>)

  /** One read: the flag is 1 while a truthy spike stamp is younger than
      `ttl`; reading 0 forgets the stamp, reading 1 keeps it. */
  function Read(last: Option<real>, ttl: real, now: real): (c: Check)
    ensures c.flag == 0 || c.flag == 1
    ensures c.flag == 1 <==> Truthy(last) && now < last.value + ttl
    ensures c.flag == 1 ==> c.kept == last
    ensures c.flag == 0 ==> c.kept == None
  {
    if Truthy(last) && now - last.value < ttl then Check(1, last) else Check(0, None)
  }

  /** Reference behaviour of a timer started at `t` and running for `ttl`:
      raised until `t + ttl`. */
  function TimerFlag(t: real, ttl: real, now: real): int {
    if now < t + ttl then 1 else 0
  }

  /** The flags read at the given clock readings, with no spike in between. */
  function Flags(last: Option<real>, ttl: real, clocks: seq<real>): (fs: seq<int>)
    ensures |fs| == |clocks|
    ensures forall i :: 0 <= i < |fs| ==> fs[i] == 0 || fs[i] == 1
    decreases |clocks|
  {
    if clocks == [] then []
    else
      var c := Read(last, ttl, clocks[0]);
      [c.flag] + Flags(c.kept, ttl, clocks[1..])
  }

  /** The stamp held after the given reads. */
  function Held(last: Option<real>, ttl: real, clocks: seq<real>): Option<real>
    decreases |clocks|
  {
    if clocks == [] then last else Held(Read(last, ttl, clocks[0]).kept, ttl, clocks[1..])
  }

  predicate NonDecreasing(clocks: seq<real>) {
    forall i, j :: 0 <= i <= j < |clocks| ==> clocks[i] <= clocks[j]
  }

  /** Once the flag is gone it stays gone until the next spike. */
  lemma {:induction false} ClearedStaysDown(ttl: real, clocks: seq<real>)
    ensures forall i :: 0 <= i < |clocks| ==> Flags(None, ttl, clocks)[i] == 0
    ensures Held(None, ttl, clocks) == None
  {
    if clocks != [] {
      ClearedStaysDown(ttl, clocks[1..]);
    }
  }

  /** Whatever the clock does, the flags read between two spikes form a run
      of ones followed by a run of zeros. */
  lemma {:induction false} FlagsNonIncreasing(last: Option<real>, ttl: real, clocks: seq<real>)
    ensures forall i, j :: 0 <= i <= j < |clocks| ==> Flags(last, ttl, clocks)[j] <= Flags(last, ttl, clocks)[i]
    decreases |clocks|
  {
    if clocks != [] {
      var c := Read(last, ttl, clocks[0]);
      var fs := Flags(last, ttl, clocks);
      var rest := Flags(c.kept, ttl, clocks[1..]);
      assert fs == [c.flag] + rest;
      FlagsNonIncreasing(c.kept, ttl, clocks[1..]);
      if c.flag == 0 {
        ClearedStaysDown(ttl, clocks[1..]);
      }
      forall i, j | 0 <= i <= j < |clocks|
        ensures fs[j] <= fs[i]
      {
        if i > 0 {
          assert fs[i] == rest[i - 1] && fs[j] == rest[j - 1];
        } else if j > 0 {
          assert fs[j] == rest[j - 1];
        }
      }
    }
  }

  /** With a clock that never runs backwards, lazy expiry of a non-zero stamp
      reads exactly what a timer started at the spike would show. A zero stamp
      is the exception (`ZeroStampNeverRaisesFlag`). */
  lemma {:induction false} LazyExpiryMatchesTimer(t: real, ttl: real, clocks: seq<real>)
    requires t != 0.0
    requires NonDecreasing(clocks)
    ensures forall i :: 0 <= i < |clocks| ==> Flags(Some(t), ttl, clocks)[i] == TimerFlag(t, ttl, clocks[i])
  {
    if clocks != [] {
      var c := Read(Some(t), ttl, clocks[0]);
      var fs := Flags(Some(t), ttl, clocks);
      var rest := Flags(c.kept, ttl, clocks[1..]);
      assert fs == [c.flag] + rest;
      assert NonDecreasing(clocks[1..]);
      if c.flag == 1 {
        LazyExpiryMatchesTimer(t, ttl, clocks[1..]);
        forall i | 1 <= i < |clocks|
          ensures fs[i] == TimerFlag(t, ttl, clocks[i])
        {
          assert fs[i] == rest[i - 1];
          assert clocks[1..][i - 1] == clocks[i];
        }
      } else {
        ClearedStaysDown(ttl, clocks[1..]);
        forall i | 1 <= i < |clocks|
          ensures fs[i] == TimerFlag(t, ttl, clocks[i])
        {
          assert fs[i] == rest[i - 1];
          assert clocks[0] <= clocks[i];
        }
      }
    }
  }

  /** A clock that runs backwards after the flag expired shows the difference
      from a timer: the flag is not raised again. */
  lemma BackwardsClockDiffersFromTimer()
    ensures Flags(Some(1.0), 1.0, [2.5, 1.5]) == [0, 0]
    ensures TimerFlag(1.0, 1.0, 1.5) == 1
  {
  }

  /** A spike stamped exactly 0.0 never raises the flag, however close the
      reading, because the held stamp is tested for truthiness. */
  lemma ZeroStampNeverRaisesFlag(ttl: real, clocks: seq<real>)
    ensures forall i :: 0 <= i < |clocks| ==> Flags(Some(0.0), ttl, clocks)[i] == 0
  {
    if clocks != [] {
      assert Read(Some(0.0), ttl, clocks[0]).kept == None;
      ClearedStaysDown(ttl, clocks[1..]);
    }
  }
}

=== FILE: common.dfy ===
/** Values shared by the analyzer and the runner: optional values, the dynamic
    values held in Python dicts, and Python truthiness of an optional number. */
module Common {

  /** Some/None, used for dict entries that may be absent and for `Optional[float]`. */
  datatype Option<+T> = None | Some(value: T) {

    /** `d.get(key, default)`: the held value, or the default when absent. */
    function GetOr(default: T): T {
      match this
      case Some(v) => v
      case None => default
    }
  }

  /** A value stored in one of the feature dicts passed between components. */
  datatype Value = Num(num: real) | Int(i: int) | Text(text: string) | Null

  /** A value Python arithmetic accepts (a float or an int). */
  predicate IsNumber(v: Value) {
    v.Num? || v.Int?
  }

  function AsReal(v: Value): real
    requires IsNumber(v)
  {
    if v.Num? then v.num else v.i as real
  }

  /** Python truthiness of a dict value. */
  predicate TruthyValue(v: Value) {
    match v
    case Num(x) => x != 0.0
    case Int(n) => n != 0
    case Text(t) => t != ""
    case Null => false
  }

  /** Python truthiness of an `Optional[float]`: false for `None` and for `0.0`. */
  predicate Truthy(x: Option<real>) {
    x.Some? && x.value != 0.0
  }
}

=== FILE: runner.dfy ===
/** The combined stream runner: the state it derives from its collaborators
    (latest trade aggregate, activity-spike flag), the feature event it sends
    to the merger, callback wiring, and the run/stop lifecycle.

    The order book, trades stream, merger, signal detector and model runner
    are opaque: the order book is seen only through an `OrderBookView`, and
    every call into the others is recorded as an `Action` in a trace. */
module Runner {
  import opened Common
  import TA = TradeActivity
  import ActivityFlag

  /** Lifetime of the activity-spike flag, in seconds. */
  const ActivitySpikeTtl: real := 1.0

  /** The three long-running tasks `run` creates. */
  datatype Task = OrderBookTask | TradesTask | MergerTask

  /** Callback lists kept by collaborators. */
  datatype Source = OrderBookUpdates | Signals | RawTrades | TradeAggregates | MergedRecords | ActivitySpikes

  /** Callables the runner registers. */
  datatype Handler =
    | OrderbookUpdateCb
    | DetectSignalCb
    | SignalCb
    | MergerAddTradeCb
    | TradeAggregateCb
    | AnalyzeAggregateCb
    | ActivitySpikeCb
    | InferenceCb

  /** One call the runner makes into a collaborator, or one lifecycle step. */
  datatype Action =
    | AssignModelToMerger
    | Register(source: Source, handler: Handler)
    | StartTask(task: Task)
    | AddOrderbook(event: map<string, Value>)
    | Predict(record: map<string, Value>)
    | ClearRunning
    | StopOrderBook
    | StopTrades
    | StopMerger
    | Cancel(task: Task)
    | AwaitTasks

  /** What the handler reads from the order book at one update. */
  datatype OrderBookView = OrderBookView(
    midPrice: Option<real>,
    imbalance: real,
    bidVolume: real,
    askVolume: real,
    nearPriceVolume: map<string, Value>,
    lastUpdateTs: Value)

  /** The runner's fields, and the trace of calls it has made. */
  datatype State = State(
    running: bool,
    modelPresent: bool,
    analyzer: TA.Analyzer<Handler>,
    lastSpikeTs: Option<real>,
    ttl: real,
    latestTradeAgg: map<string, Value>,
    tasks: seq<Task>,
    actions: seq<Action>)

  /** `__init__`. `modelLoads` is whether constructing the model runner from
      the path succeeds; a failure leaves the runner without inference. */
  function Init(modelPath: Option<string>, modelLoads: bool): (r: State)
    ensures r.modelPresent <==> modelPath.Some? && modelPath.value != "" && modelLoads
    ensures r.actions == (if r.modelPresent then [AssignModelToMerger] else [])
    ensures !r.running && r.lastSpikeTs == None && r.latestTradeAgg == map[] && r.tasks == []
    ensures r.ttl == ActivitySpikeTtl
    ensures r.analyzer.callbacks == [] && r.analyzer.log == []
    ensures r.analyzer.config == TA.Defaults.(enableLogging := false)
  {
    var present := modelPath.Some? && modelPath.value != "" && modelLoads;
    State(
      running := false,
      modelPresent := present,
      analyzer := TA.Init(TA.Defaults.(enableLogging := false)),
      lastSpikeTs := None,
      ttl := ActivitySpikeTtl,
      latestTradeAgg := map[],
      tasks := [],
      actions := if present then [AssignModelToMerger] else [])
  }

  /** The callback list each handler belongs on. The spike handler goes on
      the analyzer's list, which is modelled directly rather than recorded. */
  function SourceOf(h: Handler): Source {
    match h
    case OrderbookUpdateCb => OrderBookUpdates
    case DetectSignalCb => OrderBookUpdates
    case SignalCb => Signals
    case MergerAddTradeCb => RawTrades
    case TradeAggregateCb => TradeAggregates
    case AnalyzeAggregateCb => TradeAggregates
    case ActivitySpikeCb => ActivitySpikes
    case InferenceCb => MergedRecords
  }

  /** Handlers registered on every start, whether or not a model loaded. */
  predicate AlwaysWired(h: Handler) {
    h != ActivitySpikeCb && h != InferenceCb
  }

  /** The registrations `_setup_callbacks` makes on the opaque collaborators,
      in order; the inference hook only when a model is present. */
  function Registrations(modelPresent: bool): (regs: seq<Action>)
    ensures forall i :: 0 <= i < |regs| ==> regs[i].Register? && regs[i].source == SourceOf(regs[i].handler)
    ensures forall h :: AlwaysWired(h) ==> Register(SourceOf(h), h) in regs
    ensures forall i, j :: 0 <= i < |regs| && 0 <= j < |regs| && regs[i].handler == regs[j].handler ==> i == j
    ensures Register(MergedRecords, InferenceCb) in regs <==> modelPresent
    ensures forall i :: 0 <= i < |regs| ==> regs[i].handler != ActivitySpikeCb
    ensures forall i, j ::
      (0 <= i < |regs| && 0 <= j < |regs| && regs[i].handler == OrderbookUpdateCb && regs[j].handler == DetectSignalCb) ==> i < j
    ensures forall i, j ::
      (0 <= i < |regs| && 0 <= j < |regs| && regs[i].handler == TradeAggregateCb && regs[j].handler == AnalyzeAggregateCb) ==> i < j
  {
    [ Register(OrderBookUpdates, OrderbookUpdateCb),
      Register(OrderBookUpdates, DetectSignalCb),
      Register(Signals, SignalCb),
      Register(RawTrades, MergerAddTradeCb),
      Register(TradeAggregates, TradeAggregateCb),
      Register(TradeAggregates, AnalyzeAggregateCb) ]
    + (if modelPresent then [Register(MergedRecords, InferenceCb)] else [])
  }

  /** `_setup_callbacks`: the activity-spike handler goes on the analyzer
      behind any earlier callback; the rest are recorded registrations. */
  function SetupCallbacks(r: State): (r': State)
    ensures r'.actions == r.actions + Registrations(r.modelPresent)
    ensures Register(MergedRecords, InferenceCb) in r'.actions[|r.actions|..] <==> r.modelPresent
    ensures r'.analyzer.callbacks == r.analyzer.callbacks + [ActivitySpikeCb]
    ensures r'.analyzer.log == r.analyzer.log && r'.analyzer.config == r.analyzer.config
    ensures r'.(actions := r.actions, analyzer := r.analyzer) == r
  {
    var regs := Registrations(r.modelPresent);
    var r1 := r.(actions := r.actions + regs[..6]);
    var r2 := r1.(analyzer := TA.OnActivity(r1.analyzer, ActivitySpikeCb));
    var r' := r2.(actions := r2.actions + regs[6..]);
    assert r'.actions[|r.actions|..] == regs;
    r'
  }

  /** `_handle_trade_aggregate`: the cache is replaced by the new aggregate. */
  function HandleTradeAggregate(r: State, agg: map<string, Value>): (r': State)
    ensures r'.latestTradeAgg.Keys == agg.Keys
    ensures forall k :: k in agg ==> r'.latestTradeAgg[k] == agg[k]
    ensures r'.(latestTradeAgg := r.latestTradeAgg) == r
  {
    r.(latestTradeAgg := agg)
  }

  /** A spike timestamp the flag check can read: a number, or a falsy value
      that the check skips without doing arithmetic on it. */
  predicate StampLike(v: Value) {
    IsNumber(v) || !TruthyValue(v)
  }

  /** The stamp as the flag check sees it. A falsy non-number (`None`, `""`)
      is held as `None`: the check treats both alike and then stores `None`. */
  function HeldStamp(v: Value): (t: Option<real>)
    requires StampLike(v)
    ensures IsNumber(v) <==> t.Some?
    ensures t.Some? ==> t.value == AsReal(v)
    ensures Truthy(t) <==> TruthyValue(v)
  {
    if IsNumber(v) then Some(AsReal(v)) else None
  }

  /** `_handle_activity_spike`: hold the spike's timestamp. */
  function HandleActivitySpike(r: State, e: TA.SpikeEvent): (r': State)
    requires StampLike(e.ts)
    ensures IsNumber(e.ts) ==> r'.lastSpikeTs == Some(AsReal(e.ts))
    ensures !IsNumber(e.ts) ==> r'.lastSpikeTs == None
    ensures r'.(lastSpikeTs := r.lastSpikeTs) == r
  {
    r.(lastSpikeTs := HeldStamp(e.ts))
  }

  /** The keys the handler computes itself. */
  const FixedKeys: set<string> := {"ts", "mid_price", "imbalance", "bid_volume", "ask_volume", "activity_spike"}

  /** The fields the handler computes: the order book's readings and the flag. */
  function FixedFields(ob: OrderBookView, mid: real, flag: int): (m: map<string, Value>)
    ensures m.Keys == FixedKeys
    ensures m["activity_spike"] == Int(flag) && m["mid_price"] == Num(mid) && m["ts"] == ob.lastUpdateTs
    ensures m["imbalance"] == Num(ob.imbalance)
    ensures m["bid_volume"] == Num(ob.bidVolume) && m["ask_volume"] == Num(ob.askVolume)
  {
    map[
      "ts" := ob.lastUpdateTs,
      "mid_price" := Num(mid),
      "imbalance" := Num(ob.imbalance),
      "bid_volume" := Num(ob.bidVolume),
      "ask_volume" := Num(ob.askVolume),
      "activity_spike" := Int(flag)]
  }

  /** A dict literal with two `**` spreads: later sources win on shared keys. */
  function FeatureEvent(fixed: map<string, Value>, near: map<string, Value>, agg: map<string, Value>): (ev: map<string, Value>)
    ensures ev.Keys == fixed.Keys + near.Keys + agg.Keys
    ensures forall k :: k in agg ==> ev[k] == agg[k]
    ensures forall k :: k in near && k !in agg ==> ev[k] == near[k]
    ensures forall k :: k in fixed && k !in near && k !in agg ==> ev[k] == fixed[k]
  {
    fixed + near + agg
  }

  /** `_handle_orderbook_update` at wall-clock time `now`. A falsy mid price
      returns at once; otherwise the flag is read (and expired) and one
      feature event goes to the merger. */
  function HandleOrderbookUpdate(r: State, ob: OrderBookView, now: real): (r': State)
    ensures !Truthy(ob.midPrice) ==> r' == r
    ensures Truthy(ob.midPrice) ==>
      var c := ActivityFlag.Read(r.lastSpikeTs, r.ttl, now);
      && |r'.actions| == |r.actions| + 1
      && r'.actions[..|r.actions|] == r.actions
      && r'.actions[|r.actions|] == AddOrderbook(FeatureEvent(
           FixedFields(ob, ob.midPrice.value, c.flag), ob.nearPriceVolume, r.latestTradeAgg))
      && r'.lastSpikeTs == c.kept
      && r'.(actions := r.actions, lastSpikeTs := r.lastSpikeTs) == r
  {
    if !Truthy(ob.midPrice) then r
    else
      var c := ActivityFlag.Read(r.lastSpikeTs, r.ttl, now);
      var event := FeatureEvent(FixedFields(ob, ob.midPrice.value, c.flag), ob.nearPriceVolume, r.latestTradeAgg);
      r.(lastSpikeTs := c.kept, actions := r.actions + [AddOrderbook(event)])
  }

  /** `_handle_inference`: a no-op without a model, else one prediction call
      whose result is only logged. */
  function HandleInference(r: State, record: map<string, Value>): (r': State)
    ensures !r.modelPresent ==> r' == r
    ensures r.modelPresent ==> r'.actions == r.actions + [Predict(record)] && r'.(actions := r.actions) == r
  {
    if !r.modelPresent then r else r.(actions := r.actions + [Predict(record)])
  }

  /** `run`: a no-op when already running; otherwise set the flag, wire the
      callbacks and start the three tasks. The keep-alive loop is not modelled. */
  function Run(r: State): (r': State)
    ensures r.running ==> r' == r
    ensures !r.running ==>
      && r'.running
      && r'.tasks == [OrderBookTask, TradesTask, MergerTask]
      && r'.actions == r.actions + Registrations(r.modelPresent)
           + [StartTask(OrderBookTask), StartTask(TradesTask), StartTask(MergerTask)]
      && r'.analyzer.callbacks == r.analyzer.callbacks + [ActivitySpikeCb]
      && r'.analyzer.config == r.analyzer.config && r'.analyzer.log == r.analyzer.log
    ensures r'.(running := r.running, tasks := r.tasks, actions := r.actions, analyzer := r.analyzer) == r
  {
    if r.running then r
    else
      var r1 := SetupCallbacks(r.(running := true));
      assert r1.actions == r.actions + Registrations(r.modelPresent);
      r1.(tasks := [OrderBookTask, TradesTask, MergerTask],
          actions := r1.actions + [StartTask(OrderBookTask), StartTask(TradesTask), StartTask(MergerTask)])
  }

  /** One cancellation per task not yet done, in task order. */
  function Cancellations(tasks: seq<Task>, done: set<Task>): (cs: seq<Action>)
    ensures forall i :: 0 <= i < |cs| ==> cs[i].Cancel? && cs[i].task in tasks && cs[i].task !in done
    ensures forall t :: t in tasks && t !in done ==> Cancel(t) in cs
    ensures |cs| <= |tasks|
    ensures InTaskOrder(cs, tasks)
  {
    if tasks == [] then []
    else
      var rest := Cancellations(tasks[1..], done);
      CancelsFollowTasks(tasks, rest);
      if tasks[0] in done then rest else [Cancel(tasks[0])] + rest
  }

  /** The i-th and j-th cancellations name tasks at increasing positions of `tasks`. */
  predicate PairInOrder(cs: seq<Action>, tasks: seq<Task>, i: int, j: int)
    requires 0 <= i < |cs| && 0 <= j < |cs|
  {
    exists p, q :: 0 <= p < q < |tasks| && cs[i] == Cancel(tasks[p]) && cs[j] == Cancel(tasks[q])
  }

  /** Every two cancellations name tasks at increasing positions of `tasks`:
      no task is cancelled twice (unless listed twice) and the list order is kept. */
  predicate InTaskOrder(cs: seq<Action>, tasks: seq<Task>) {
    forall i, j :: 0 <= i < j < |cs| ==> PairInOrder(cs, tasks, i, j)
  }

  /** Cancellations in the order of the tail of `tasks` are in the order of
      `tasks`, also behind a cancellation of its head. */
  lemma CancelsFollowTasks(tasks: seq<Task>, rest: seq<Action>)
    requires |tasks| > 0
    requires forall i :: 0 <= i < |rest| ==> rest[i].Cancel? && rest[i].task in tasks[1..]
    requires InTaskOrder(rest, tasks[1..])
    ensures InTaskOrder(rest, tasks)
    ensures InTaskOrder([Cancel(tasks[0])] + rest, tasks)
  {
    forall i, j | 0 <= i < j < |rest|
      ensures PairInOrder(rest, tasks, i, j)
    {
      ShiftedPair(tasks, rest, i, j);
    }
    var cs := [Cancel(tasks[0])] + rest;
    forall i, j | 0 <= i < j < |cs|
      ensures PairInOrder(cs, tasks, i, j)
    {
      if i == 0 {
        var t := rest[j - 1].task;
        assert t in tasks[1..];
        var q :| 0 <= q < |tasks[1..]| && tasks[1..][q] == t;
        assert tasks[q + 1] == t;
        assert 0 <= 0 < q + 1 < |tasks| && cs[i] == Cancel(tasks[0]) && cs[j] == Cancel(tasks[q + 1]);
      } else {
        ShiftedPair(tasks, rest, i - 1, j - 1);
        assert cs[i] == rest[i - 1] && cs[j] == rest[j - 1];
      }
    }
  }

  /** One pair of `InTaskOrder`, moved from the tail of `tasks` to `tasks`. */
  lemma ShiftedPair(tasks: seq<Task>, rest: seq<Action>, a: nat, b: nat)
    requires |tasks| > 0 && a < b < |rest|
    requires InTaskOrder(rest, tasks[1..])
    ensures PairInOrder(rest, tasks, a, b)
  {
    assert PairInOrder(rest, tasks[1..], a, b);
    var p, q :| 0 <= p < q < |tasks[1..]| && rest[a] == Cancel(tasks[1..][p]) && rest[b] == Cancel(tasks[1..][q]);
    assert tasks[p + 1] == tasks[1..][p] && tasks[q + 1] == tasks[1..][q];
  }

  /** The shutdown sequence: clear the flag, stop both sources, stop the
      merger, cancel the unfinished tasks, wait for all tasks. */
  function ShutdownSteps(tasks: seq<Task>, done: set<Task>): (steps: seq<Action>)
    ensures |steps| >= 5
    ensures steps[..4] == [ClearRunning, StopOrderBook, StopTrades, StopMerger]
    ensures steps[|steps| - 1] == AwaitTasks
    ensures steps[4..|steps| - 1] == Cancellations(tasks, done)
    ensures forall i :: 4 <= i < |steps| - 1 ==> steps[i].Cancel? && steps[i].task !in done
    ensures forall t :: t in tasks && t !in done ==> Cancel(t) in steps
  {
    var cs := Cancellations(tasks, done);
    var steps := [ClearRunning, StopOrderBook, StopTrades, StopMerger] + cs + [AwaitTasks];
    assert steps[4..|steps| - 1] == cs;
    assert forall i :: 4 <= i < |steps| - 1 ==> steps[i] == cs[i - 4];
    steps
  }

  /** `stop`. `done` is the set of tasks that have already finished. A no-op
      when not running; otherwise the shutdown sequence is recorded. */
  function Stop(r: State, done: set<Task>): (r': State)
    ensures !r.running ==> r' == r
    ensures r.running ==> !r'.running && r'.actions == r.actions + ShutdownSteps(r.tasks, done)
    ensures r'.(running := r.running, actions := r.actions) == r
  {
    if !r.running then r
    else r.(running := false, actions := r.actions + ShutdownSteps(r.tasks, done))
  }

  /** A dict entry that `process_event` adds up: absent means 0. */
  function VolumeAt(d: map<string, Value>, k: string): real
    requires k in d ==> IsNumber(d[k])
  {
    if k in d then AsReal(d[k]) else 0.0
  }

  /** What `process_event` needs to run without a TypeError: numeric
      volumes, and numeric means unless the zero-total early return is taken
      before the means are read. */
  predicate NumericAggregate(d: map<string, Value>) {
    && ("buy_volume" in d ==> IsNumber(d["buy_volume"]))
    && ("sell_volume" in d ==> IsNumber(d["sell_volume"]))
    && (VolumeAt(d, "buy_volume") + VolumeAt(d, "sell_volume") != 0.0 ==>
          && ("buy_mean" in d ==> IsNumber(d["buy_mean"]))
          && ("sell_mean" in d ==> IsNumber(d["sell_mean"])))
  }

  /** A numeric entry, or nothing when absent or not a number. */
  function NumberAt(d: map<string, Value>, k: string): Option<real> {
    if k in d && IsNumber(d[k]) then Some(AsReal(d[k])) else None
  }

  function ValueAt(d: map<string, Value>, k: string): Option<Value> {
    if k in d then Some(d[k]) else None
  }

  /** An aggregate the runner can take end to end: numbers where the
      analyzer does arithmetic, and a stamp the flag check can read. */
  predicate WellFormedAggregate(d: map<string, Value>) {
    NumericAggregate(d) && ("ts" in d ==> StampLike(d["ts"]))
  }

  /** The aggregate dict as the analyzer reads it with `dict.get`. The means
      are only read when the total volume is non-zero. */
  function ReadAggregate(d: map<string, Value>): (agg: TA.TradeAggregate)
    requires NumericAggregate(d)
    ensures "ts" in d ==> agg.ts == Some(d["ts"])
    ensures "ts" !in d ==> agg.ts == None
    ensures agg.Buy() == (if "buy_volume" in d then AsReal(d["buy_volume"]) else 0.0)
    ensures agg.Sell() == (if "sell_volume" in d then AsReal(d["sell_volume"]) else 0.0)
    ensures agg.Total() != 0.0 ==>
      agg.MaVolume() == VolumeAt(d, "buy_mean") + VolumeAt(d, "sell_mean")
    ensures agg.avgPrice.GetOr(Int(0)) == (if "avg_price" in d then d["avg_price"] else Int(0))
    ensures agg.tradeCount.GetOr(Int(0)) == (if "trade_count" in d then d["trade_count"] else Int(0))
  {
    TA.TradeAggregate(
      ValueAt(d, "ts"), NumberAt(d, "buy_volume"), NumberAt(d, "sell_volume"),
      NumberAt(d, "buy_mean"), NumberAt(d, "sell_mean"),
      ValueAt(d, "avg_price"), ValueAt(d, "trade_count"))
  }

  /** Runs the analyzer's notifications against the runner; only the
      activity-spike handler is ever registered on the analyzer. */
  function Dispatch(r: State, effects: seq<TA.Effect<Handler>>): (r': State)
    requires forall i :: 0 <= i < |effects| ==> StampLike(effects[i].event.ts)
    ensures r'.(lastSpikeTs := r.lastSpikeTs) == r
    ensures r'.lastSpikeTs != r.lastSpikeTs ==>
      exists i :: (0 <= i < |effects| && effects[i].Notified? && effects[i].callback == ActivitySpikeCb
                   && r'.lastSpikeTs == HeldStamp(effects[i].event.ts))
    decreases |effects|
  {
    if effects == [] then r
    else
      var r1 :=
        if effects[0].Notified? && effects[0].callback == ActivitySpikeCb
        then HandleActivitySpike(r, effects[0].event) else r;
      Dispatch(r1, effects[1..])
  }

  /** When every notification carries the same event, dispatching holds that
      event's timestamp exactly when the spike handler is among the notified. */
  lemma {:induction false} DispatchHoldsSpike(r: State, effects: seq<TA.Effect<Handler>>, e: TA.SpikeEvent)
    requires StampLike(e.ts)
    requires forall i :: 0 <= i < |effects| ==> effects[i].event == e
    ensures Dispatch(r, effects).lastSpikeTs ==
      if TA.Notified(ActivitySpikeCb, e) in effects then HeldStamp(e.ts) else r.lastSpikeTs
    decreases |effects|
  {
    if effects != [] {
      var r1 :=
        if effects[0].Notified? && effects[0].callback == ActivitySpikeCb
        then HandleActivitySpike(r, effects[0].event) else r;
      DispatchHoldsSpike(r1, effects[1..], e);
      assert effects == [effects[0]] + effects[1..];
    }
  }

  /** Handing the analyzer's step to the runner holds the emitted event's
      timestamp exactly when the spike handler is registered on the analyzer. */
  lemma AnalyzerStepReachesHandler(r: State, agg: TA.TradeAggregate, clock: real)
    requires agg.ts.Some? ==> StampLike(agg.ts.value)
    ensures
      var step := TA.ProcessEvent(r.analyzer, agg, clock);
      forall i :: 0 <= i < |step.effects| ==> StampLike(step.effects[i].event.ts)
    ensures
      var step := TA.ProcessEvent(r.analyzer, agg, clock);
      var found := TA.Classify(r.analyzer.config, agg, clock);
      Dispatch(r.(analyzer := step.after), step.effects).lastSpikeTs ==
        if found.Some? && ActivitySpikeCb in r.analyzer.callbacks then HeldStamp(found.value.ts) else r.lastSpikeTs
  {
    var found := TA.Classify(r.analyzer.config, agg, clock);
    if found.Some? {
      var step := TA.ProcessEvent(r.analyzer, agg, clock);
      TA.StepCarriesEvent(r.analyzer, agg, clock);
      DispatchHoldsSpike(r.(analyzer := step.after), step.effects, found.value);
    }
  }

  /** `process_event` registered on the trades stream: the analyzer's step on
      the aggregate, whose notifications reach the spike handler. */
  function AnalyzeAggregate(r: State, d: map<string, Value>, clock: real): (r': State)
    requires WellFormedAggregate(d)
    ensures r'.(lastSpikeTs := r.lastSpikeTs, analyzer := r.analyzer) == r
    ensures r'.analyzer.callbacks == r.analyzer.callbacks && r'.analyzer.config == r.analyzer.config
    ensures
      var found := TA.Classify(r.analyzer.config, ReadAggregate(d), clock);
      && (found.None? ==> r' == r)
      && (found.Some? && ActivitySpikeCb in r.analyzer.callbacks ==> r'.lastSpikeTs == HeldStamp(found.value.ts))
      && (found.Some? && ActivitySpikeCb !in r.analyzer.callbacks ==> r'.lastSpikeTs == r.lastSpikeTs)
      && (found.Some? && r.analyzer.config.savePath != "" ==> r'.analyzer.log == r.analyzer.log + [found.value])
      && (found.Some? && r.analyzer.config.savePath == "" ==> r'.analyzer.log == r.analyzer.log)
  {
    var step := TA.ProcessEvent(r.analyzer, ReadAggregate(d), clock);
    AnalyzerStepReachesHandler(r, ReadAggregate(d), clock);
    Dispatch(r.(analyzer := step.after), step.effects)
  }

  /** One aggregate from the trades stream, delivered to the two handlers one
      `_setup_callbacks` registers for it, in registration order: first the
      cache, then the analyzer, whose notifications reach the spike handler. */
  function DeliverTradeAggregate(r: State, d: map<string, Value>, clock: real): (r': State)
    requires WellFormedAggregate(d)
    ensures r'.latestTradeAgg == d
    ensures r'.(latestTradeAgg := r.latestTradeAgg, lastSpikeTs := r.lastSpikeTs, analyzer := r.analyzer) == r
    ensures r'.analyzer.callbacks == r.analyzer.callbacks && r'.analyzer.config == r.analyzer.config
    ensures
      var found := TA.Classify(r.analyzer.config, ReadAggregate(d), clock);
      && (found.None? ==> r'.lastSpikeTs == r.lastSpikeTs && r'.analyzer == r.analyzer)
      && (found.Some? && ActivitySpikeCb in r.analyzer.callbacks ==> r'.lastSpikeTs == HeldStamp(found.value.ts))
      && (found.Some? && ActivitySpikeCb !in r.analyzer.callbacks ==> r'.lastSpikeTs == r.lastSpikeTs)
      && (found.Some? && r.analyzer.config.savePath != "" ==> r'.analyzer.log == r.analyzer.log + [found.value])
      && (found.Some? && r.analyzer.config.savePath == "" ==> r'.analyzer.log == r.analyzer.log)
  {
    AnalyzeAggregate(HandleTradeAggregate(r, d), d, clock)
  }

  /** The handlers on the trades stream's aggregate list, in registration order. */
  function AggregateHandlers(actions: seq<Action>): (hs: seq<Handler>)
    ensures forall h :: h in hs <==> Register(TradeAggregates, h) in actions
    decreases |actions|
  {
    if actions == [] then []
    else
      var here := if actions[0].Register? && actions[0].source == TradeAggregates then [actions[0].handler] else [];
      assert actions == [actions[0]] + actions[1..];
      here + AggregateHandlers(actions[1..])
  }

  lemma {:induction false} AggregateHandlersAppend(a: seq<Action>, b: seq<Action>)
    ensures AggregateHandlers(a + b) == AggregateHandlers(a) + AggregateHandlers(b)
    decreases |a|
  {
    if a == [] {
      assert a + b == b;
    } else {
      assert (a + b)[0] == a[0] && (a + b)[1..] == a[1..] + b;
      AggregateHandlersAppend(a[1..], b);
    }
  }

  /** One aggregate delivered to every handler in `hs`, in order, as the
      trades stream does with its aggregate list. */
  function DeliverTo(r: State, hs: seq<Handler>, d: map<string, Value>, clock: real): (r': State)
    requires WellFormedAggregate(d)
    ensures r'.latestTradeAgg == (if TradeAggregateCb in hs then d else r.latestTradeAgg)
    ensures r'.analyzer.callbacks == r.analyzer.callbacks && r'.analyzer.config == r.analyzer.config
    ensures r'.(latestTradeAgg := r.latestTradeAgg, lastSpikeTs := r.lastSpikeTs, analyzer := r.analyzer) == r
    ensures AnalyzeAggregateCb !in hs ==> r'.analyzer == r.analyzer && r'.lastSpikeTs == r.lastSpikeTs
    decreases |hs|
  {
    if hs == [] then r
    else
      assert hs == [hs[0]] + hs[1..];
      DeliverTo(DeliverOne(r, hs[0], d, clock), hs[1..], d, clock)
  }

  /** One aggregate handed to one handler of the list; any other handler
      leaves the state alone. */
  function DeliverOne(r: State, h: Handler, d: map<string, Value>, clock: real): (r': State)
    requires WellFormedAggregate(d)
    ensures h == TradeAggregateCb ==> r' == HandleTradeAggregate(r, d)
    ensures h == AnalyzeAggregateCb ==> r' == AnalyzeAggregate(r, d, clock)
    ensures h != TradeAggregateCb && h != AnalyzeAggregateCb ==> r' == r
  {
    if h == TradeAggregateCb then HandleTradeAggregate(r, d)
    else if h == AnalyzeAggregateCb then AnalyzeAggregate(r, d, clock)
    else r
  }

  /** Delivering to a concatenated list is delivering to each part in turn. */
  lemma {:induction false} DeliverToAppend(r: State, a: seq<Handler>, b: seq<Handler>, d: map<string, Value>, clock: real)
    requires WellFormedAggregate(d)
    ensures DeliverTo(r, a + b, d, clock) == DeliverTo(DeliverTo(r, a, d, clock), b, d, clock)
    decreases |a|
  {
    if a == [] {
      assert a + b == b;
    } else {
      assert (a + b)[0] == a[0] && (a + b)[1..] == a[1..] + b;
      DeliverToAppend(DeliverOne(r, a[0], d, clock), a[1..], b, d, clock);
    }
  }

  /** With a single registration of each aggregate handler, delivering to the
      registered list is `DeliverTradeAggregate`. */
  lemma SingleRegistrationDelivers(r: State, d: map<string, Value>, clock: real)
    requires WellFormedAggregate(d)
    ensures DeliverTo(r, [TradeAggregateCb, AnalyzeAggregateCb], d, clock) == DeliverTradeAggregate(r, d, clock)
  {
    var hs := [TradeAggregateCb, AnalyzeAggregateCb];
    var r1 := HandleTradeAggregate(r, d);
    assert DeliverTo(r, hs, d, clock) == DeliverTo(r1, hs[1..], d, clock);
    assert DeliverTo(r1, hs[1..], d, clock) == DeliverTo(AnalyzeAggregate(r1, d, clock), [], d, clock);
  }
}

=== FILE: runner_props.dfy ===
/** Properties of the runner that relate several calls: lifecycle guards,
    shutdown ordering, cache replacement, and the activity flag as seen in
    the feature events sent to the merger. */
module RunnerProps {
  import opened Common
  import TA = TradeActivity
  import ActivityFlag
  import opened Runner

  /** A second `run` changes nothing, so nothing is registered twice. */
  lemma RunIsIdempotent(r: State)
    ensures Run(Run(r)) == Run(r)
    ensures !r.running ==> |Run(r).analyzer.callbacks| == |r.analyzer.callbacks| + 1
  {
  }

  /** A second `stop` changes nothing and records no shutdown step. */
  lemma StopIsIdempotent(r: State, done: set<Task>, later: set<Task>)
    ensures Stop(Stop(r, done), later) == Stop(r, done)
  {
  }

  /** During shutdown the merger is stopped after both sources and before any
      task is cancelled; waiting for the tasks comes last. */
  lemma ShutdownOrder(tasks: seq<Task>, done: set<Task>)
    ensures
      var steps := ShutdownSteps(tasks, done);
      && (forall i, j ::
            (0 <= i < |steps| && 0 <= j < |steps| && steps[i] == StopMerger
             && (steps[j] == StopOrderBook || steps[j] == StopTrades || steps[j] == ClearRunning)) ==> j < i)
      && (forall i, j ::
            (0 <= i < |steps| && 0 <= j < |steps| && steps[i] == StopMerger && steps[j].Cancel?) ==> i < j)
      && (forall j :: 0 <= j < |steps| - 1 ==> steps[j] != AwaitTasks)
  {
    var steps := ShutdownSteps(tasks, done);
    assert steps[0] == ClearRunning && steps[1] == StopOrderBook && steps[2] == StopTrades && steps[3] == StopMerger;
    assert forall i :: 0 <= i < |steps| && steps[i] == StopMerger ==> i == 3;
  }

  /** Shutdown cancels exactly the tasks that have not finished. */
  lemma StopCancelsUnfinished(tasks: seq<Task>, done: set<Task>, t: Task)
    ensures Cancel(t) in ShutdownSteps(tasks, done) <==> t in tasks && t !in done
  {
    var steps := ShutdownSteps(tasks, done);
    var cs := Cancellations(tasks, done);
    assert steps == [ClearRunning, StopOrderBook, StopTrades, StopMerger] + cs + [AwaitTasks];
    if Cancel(t) in steps {
      var i :| 0 <= i < |steps| && steps[i] == Cancel(t);
      assert steps[..4][0] == ClearRunning;
      assert 4 <= i < |steps| - 1;
      assert steps[i] == cs[i - 4];
    }
  }

  /** The inference hook is wired exactly when a model path was given and the
      model loaded; without a model, inference does nothing. */
  lemma InferenceHookIffModel(path: Option<string>, loads: bool, record: map<string, Value>)
    ensures
      var r := Run(Init(path, loads));
      && (Register(MergedRecords, InferenceCb) in r.actions <==> path.Some? && path.value != "" && loads)
      && (!(path.Some? && path.value != "" && loads) ==> HandleInference(r, record) == r)
  {
    var r0 := Init(path, loads);
    var r := Run(r0);
    var regs := Registrations(r0.modelPresent);
    var starts := [StartTask(OrderBookTask), StartTask(TradesTask), StartTask(MergerTask)];
    assert r.actions == r0.actions + regs + starts;
    assert Register(MergedRecords, InferenceCb) !in r0.actions + starts;
  }

  /** Running again after a stop wires every callback a second time: each
      spike then reaches the spike handler twice. */
  lemma RestartRegistersAgain(path: Option<string>, loads: bool, done: set<Task>)
    ensures Run(Stop(Run(Init(path, loads)), done)).analyzer.callbacks == [ActivitySpikeCb, ActivitySpikeCb]
  {
  }

  /** A trace with no registration on the aggregate list adds no handler to it. */
  lemma NoAggregateHandlers(a: seq<Action>)
    requires forall i :: 0 <= i < |a| ==> !(a[i].Register? && a[i].source == TradeAggregates)
    ensures AggregateHandlers(a) == []
  {
  }

  /** One `_setup_callbacks` puts the cache and then the analyzer on the
      aggregate list. */
  lemma RegisteredAggregateHandlers(modelPresent: bool)
    ensures AggregateHandlers(Registrations(modelPresent)) == [TradeAggregateCb, AnalyzeAggregateCb]
  {
    var tail := if modelPresent then [Register(MergedRecords, InferenceCb)] else [];
    assert Registrations(modelPresent) == WiredFront + WiredPair + tail;
    WiredAggregateHandlers(tail);
  }

  /** The four registrations `Registrations` makes before the aggregate pair. */
  const WiredFront: seq<Action> := [Register(OrderBookUpdates, OrderbookUpdateCb), Register(OrderBookUpdates, DetectSignalCb),
                                    Register(Signals, SignalCb), Register(RawTrades, MergerAddTradeCb)]
  /** The aggregate pair: the cache, then the analyzer. */
  const WiredPair: seq<Action> := [Register(TradeAggregates, TradeAggregateCb), Register(TradeAggregates, AnalyzeAggregateCb)]

  /** The wiring, with or without the inference hook, lists just the pair. */
  lemma WiredAggregateHandlers(tail: seq<Action>)
    requires tail == [] || tail == [Register(MergedRecords, InferenceCb)]
    ensures AggregateHandlers(WiredFront + WiredPair + tail) == [TradeAggregateCb, AnalyzeAggregateCb]
  {
    FrontHasNoAggregateHandlers();
    NoAggregateHandlers(tail);
    AggregateHandlersAppend(WiredFront + WiredPair, tail);
    AggregateHandlersAppend(WiredFront, WiredPair);
    AggregatePair();
  }

  /** The registrations before the pair name other sources. */
  lemma FrontHasNoAggregateHandlers()
    ensures AggregateHandlers(WiredFront) == []
  {
    NoAggregateHandlers(WiredFront);
  }

  /** The pair itself lists the cache, then the analyzer. */
  lemma AggregatePair()
    ensures AggregateHandlers([Register(TradeAggregates, TradeAggregateCb), Register(TradeAggregates, AnalyzeAggregateCb)])
      == [TradeAggregateCb, AnalyzeAggregateCb]
  {
    var pair := [Register(TradeAggregates, TradeAggregateCb), Register(TradeAggregates, AnalyzeAggregateCb)];
    assert pair[1..] == [Register(TradeAggregates, AnalyzeAggregateCb)];
    assert pair[1..][1..] == [];
  }

  /** `run` from a stopped state puts the cache and then the analyzer behind
      the handlers already on the aggregate list. */
  lemma RunAddsAggregateHandlers(r: State)
    requires !r.running
    ensures AggregateHandlers(Run(r).actions) == AggregateHandlers(r.actions) + [TradeAggregateCb, AnalyzeAggregateCb]
  {
    SetupAddsAggregateHandlers(r.actions, r.modelPresent);
  }

  /** The actions `run` appends put exactly the pair on the aggregate list. */
  lemma SetupAddsAggregateHandlers(a: seq<Action>, modelPresent: bool)
    ensures
      var starts := [StartTask(OrderBookTask), StartTask(TradesTask), StartTask(MergerTask)];
      AggregateHandlers(a + Registrations(modelPresent) + starts)
        == AggregateHandlers(a) + [TradeAggregateCb, AnalyzeAggregateCb]
  {
    RegisteredAggregateHandlers(modelPresent);
    RegistrationsThenStarts(a, Registrations(modelPresent));
  }

  /** Task starts register nothing: only the wiring adds to the list. */
  lemma RegistrationsThenStarts(a: seq<Action>, regs: seq<Action>)
    requires AggregateHandlers(regs) == [TradeAggregateCb, AnalyzeAggregateCb]
    ensures
      var starts := [StartTask(OrderBookTask), StartTask(TradesTask), StartTask(MergerTask)];
      AggregateHandlers(a + regs + starts) == AggregateHandlers(a) + [TradeAggregateCb, AnalyzeAggregateCb]
  {
    var starts := [StartTask(OrderBookTask), StartTask(TradesTask), StartTask(MergerTask)];
    NoAggregateHandlers(starts);
    AggregateHandlersAppend(a + regs, starts);
    AggregateHandlersAppend(a, regs);
  }

  /** `stop` unregisters nothing: the aggregate list is unchanged. */
  lemma StopKeepsAggregateHandlers(r: State, done: set<Task>)
    ensures AggregateHandlers(Stop(r, done).actions) == AggregateHandlers(r.actions)
  {
    if r.running {
      var stops := ShutdownSteps(r.tasks, done);
      assert forall i :: 0 <= i < |stops| ==> !stops[i].Register? by {
        forall i | 0 <= i < |stops| ensures !stops[i].Register? {
          if 4 <= i < |stops| - 1 {
            assert stops[i].Cancel?;
          }
        }
      }
      NoAggregateHandlers(stops);
      AggregateHandlersAppend(r.actions, stops);
    }
  }

  /** After run, stop and run again, the aggregate list holds the cache and
      the analyzer twice each. */
  lemma RestartRegistersAggregateHandlersTwice(path: Option<string>, loads: bool, done: set<Task>)
    ensures AggregateHandlers(Run(Stop(Run(Init(path, loads)), done)).actions)
      == [TradeAggregateCb, AnalyzeAggregateCb, TradeAggregateCb, AnalyzeAggregateCb]
  {
    var r0 := Init(path, loads);
    NoAggregateHandlers(r0.actions);
    RestartDoublesAggregateHandlers(r0, done);
  }

  /** Run, stop and run again from any stopped state adds the pair twice. */
  lemma RestartDoublesAggregateHandlers(r: State, done: set<Task>)
    requires !r.running
    ensures AggregateHandlers(Run(Stop(Run(r), done)).actions)
      == AggregateHandlers(r.actions) + [TradeAggregateCb, AnalyzeAggregateCb] + [TradeAggregateCb, AnalyzeAggregateCb]
  {
    RunAddsAggregateHandlers(r);
    StopKeepsAggregateHandlers(Run(r), done);
    RunAddsAggregateHandlers(Stop(Run(r), done));
  }

  /** Delivering a reported aggregate to a doubled handler list analyzes it
      twice: with a log path set, the event is appended twice. */
  lemma DoubledHandlersLogTwice(r: State, d: map<string, Value>, clock: real)
    requires WellFormedAggregate(d)
    requires TA.Classify(r.analyzer.config, ReadAggregate(d), clock).Some?
    requires r.analyzer.config.savePath != ""
    ensures
      var e := TA.Classify(r.analyzer.config, ReadAggregate(d), clock).value;
      DeliverTo(r, [TradeAggregateCb, AnalyzeAggregateCb, TradeAggregateCb, AnalyzeAggregateCb], d, clock).analyzer.log
        == r.analyzer.log + [e, e]
  {
    DoubledHandlersDeliverTwice(r, d, clock);
    var e := TA.Classify(r.analyzer.config, ReadAggregate(d), clock).value;
    var q := DeliverTradeAggregate(r, d, clock);
    assert q.analyzer.config == r.analyzer.config && q.analyzer.log == r.analyzer.log + [e];
  }

  /** A doubled handler list is two deliveries in a row. */
  lemma DoubledHandlersDeliverTwice(r: State, d: map<string, Value>, clock: real)
    requires WellFormedAggregate(d)
    ensures DeliverTo(r, [TradeAggregateCb, AnalyzeAggregateCb, TradeAggregateCb, AnalyzeAggregateCb], d, clock)
      == DeliverTradeAggregate(DeliverTradeAggregate(r, d, clock), d, clock)
  {
    var pair := [TradeAggregateCb, AnalyzeAggregateCb];
    assert [TradeAggregateCb, AnalyzeAggregateCb, TradeAggregateCb, AnalyzeAggregateCb] == pair + pair;
    DeliverToAppend(r, pair, pair, d, clock);
    SingleRegistrationDelivers(r, d, clock);
    SingleRegistrationDelivers(DeliverTradeAggregate(r, d, clock), d, clock);
  }

  /** After run, stop and run again, each aggregate the analyzer reports is
      analyzed, and logged, twice. */
  lemma RestartAnalyzesTwice(path: Option<string>, loads: bool, done: set<Task>, d: map<string, Value>, clock: real)
    requires WellFormedAggregate(d)
    requires TA.Classify(TA.Defaults.(enableLogging := false), ReadAggregate(d), clock).Some?
    ensures
      var r := Run(Stop(Run(Init(path, loads)), done));
      var e := TA.Classify(TA.Defaults.(enableLogging := false), ReadAggregate(d), clock).value;
      DeliverTo(r, AggregateHandlers(r.actions), d, clock).analyzer.log == [e, e]
  {
    var r := Run(Stop(Run(Init(path, loads)), done));
    RestartRegistersAggregateHandlersTwice(path, loads, done);
    assert r.analyzer.config == TA.Defaults.(enableLogging := false) && r.analyzer.log == [];
    DoubledHandlersLogTwice(r, d, clock);
  }

  /** The cache keeps only the latest aggregate: the earlier one is lost. */
  lemma LatestAggregateWins(r: State, first: map<string, Value>, second: map<string, Value>)
    ensures HandleTradeAggregate(HandleTradeAggregate(r, first), second) == HandleTradeAggregate(r, second)
  {
  }

  /** After caching an aggregate, the next feature event carries every key of
      it with its value, and no key that only an earlier aggregate had. */
  lemma FeatureEventCarriesLatestAggregate(r: State, agg: map<string, Value>, ob: OrderBookView, now: real, k: string)
    requires Truthy(ob.midPrice)
    ensures
      var r' := HandleOrderbookUpdate(HandleTradeAggregate(r, agg), ob, now);
      var ev := r'.actions[|r.actions|].event;
      && (k in agg ==> k in ev && ev[k] == agg[k])
      && (k !in agg && k !in ob.nearPriceVolume && k !in FixedKeys ==> k !in ev)
  {
  }

  /** A falsy mid price leaves the held spike stamp and the merger alone,
      whatever the clock reads. */
  lemma FalsyMidKeepsSpikeStamp(r: State, ob: OrderBookView, now: real)
    requires ob.midPrice == None || ob.midPrice == Some(0.0)
    ensures HandleOrderbookUpdate(r, ob, now).lastSpikeTs == r.lastSpikeTs
    ensures HandleOrderbookUpdate(r, ob, now).actions == r.actions
  {
  }

  /** The flag value the feature event reports, when no later source
      overrides the key. */
  function ReportedFlag(r: State, ob: OrderBookView, now: real): Value
    requires Truthy(ob.midPrice)
  {
    HandleOrderbookUpdate(r, ob, now).actions[|r.actions|].event["activity_spike"]
  }

  /** End to end: an aggregate that the analyzer reports, followed by an
      order-book update, raises the event's flag exactly while the spike is
      younger than the TTL, and its stamp is a non-zero number. */
  lemma SpikeRaisesNextFlag(r: State, d: map<string, Value>, clock: real, ob: OrderBookView, now: real)
    requires WellFormedAggregate(d)
    requires ActivitySpikeCb in r.analyzer.callbacks
    requires TA.Classify(r.analyzer.config, ReadAggregate(d), clock).Some?
    requires Truthy(ob.midPrice)
    requires "activity_spike" !in ob.nearPriceVolume && "activity_spike" !in d
    ensures
      var t := TA.Classify(r.analyzer.config, ReadAggregate(d), clock).value.ts;
      var r1 := DeliverTradeAggregate(r, d, clock);
      && (ReportedFlag(r1, ob, now) == Int(1) <==> IsNumber(t) && AsReal(t) != 0.0 && now - AsReal(t) < r.ttl)
      && (ReportedFlag(r1, ob, now) == Int(0) ==> HandleOrderbookUpdate(r1, ob, now).lastSpikeTs == None)
  {
  }

  /** An aggregate whose "ts" entry is `None` is still reported by the
      analyzer; the spike handler then holds nothing, so the next feature
      event reports no spike, whatever stamp was held before. */
  lemma NullStampClearsFlag(r: State, d: map<string, Value>, clock: real, ob: OrderBookView, now: real)
    requires WellFormedAggregate(d) && "ts" in d && d["ts"] == Null
    requires ActivitySpikeCb in r.analyzer.callbacks
    requires TA.Classify(r.analyzer.config, ReadAggregate(d), clock).Some?
    requires Truthy(ob.midPrice)
    requires "activity_spike" !in ob.nearPriceVolume && "activity_spike" !in d
    ensures DeliverTradeAggregate(r, d, clock).lastSpikeTs == None
    ensures ReportedFlag(DeliverTradeAggregate(r, d, clock), ob, now) == Int(0)
  {
  }

  /** An aggregate with no volume only refreshes the cache: the analyzer
      returns before reading the means, so they may hold anything, `None`
      included. */
  lemma ZeroVolumeOnlyCaches(r: State, d: map<string, Value>, clock: real)
    requires WellFormedAggregate(d)
    requires VolumeAt(d, "buy_volume") + VolumeAt(d, "sell_volume") == 0.0
    ensures DeliverTradeAggregate(r, d, clock) == HandleTradeAggregate(r, d)
    ensures WellFormedAggregate(map["buy_volume" := Int(0), "sell_volume" := Num(0.0), "buy_mean" := Null])
  {
    assert ReadAggregate(d).Total() == 0.0;
  }

  /** Order-book updates replayed at the given clock readings. */
  function Replay(r: State, obs: seq<OrderBookView>, clocks: seq<real>): (r': State)
    requires |obs| == |clocks|
    decreases |obs|
  {
    if obs == [] then r else Replay(HandleOrderbookUpdate(r, obs[0], clocks[0]), obs[1..], clocks[1..])
  }

  /** The action is a feature event whose flag entry is `flag`. */
  predicate ReportsFlag(a: Action, flag: int) {
    a.AddOrderbook? && "activity_spike" in a.event && a.event["activity_spike"] == Int(flag)
  }

  /** One update with a truthy mid price reports the flag it reads. */
  lemma UpdateReportsFlag(r: State, ob: OrderBookView, now: real)
    requires Truthy(ob.midPrice)
    requires "activity_spike" !in ob.nearPriceVolume && "activity_spike" !in r.latestTradeAgg
    ensures
      var r' := HandleOrderbookUpdate(r, ob, now);
      var c := ActivityFlag.Read(r.lastSpikeTs, r.ttl, now);
      && |r'.actions| == |r.actions| + 1
      && r'.actions[..|r.actions|] == r.actions
      && ReportsFlag(r'.actions[|r.actions|], c.flag)
      && r'.lastSpikeTs == c.kept && r'.ttl == r.ttl && r'.latestTradeAgg == r.latestTradeAgg
  {
  }

  /** A sequence whose first n + 1 elements are known, split at n. */
  lemma SplitAfterPrefix<T>(s: seq<T>, prefix: seq<T>, n: nat)
    requires |prefix| == n + 1 && |s| >= n + 1 && s[..n + 1] == prefix
    ensures s[n..] == [prefix[n]] + s[n + 1..]
    ensures s[..n] == prefix[..n]
  {
    assert s[n] == s[..n + 1][n];
    assert s[..n] == s[..n + 1][..n];
  }

  /** Elementwise reporting is preserved by putting one report in front. */
  lemma ConsReports(first: Action, out: seq<Action>, flag: int, flags: seq<int>)
    requires |out| == |flags| && ReportsFlag(first, flag)
    requires forall i :: 0 <= i < |out| ==> ReportsFlag(out[i], flags[i])
    ensures forall i :: 0 <= i < |out| + 1 ==> ReportsFlag(([first] + out)[i], ([flag] + flags)[i])
  {
    forall i | 0 <= i < |out| + 1
      ensures ReportsFlag(([first] + out)[i], ([flag] + flags)[i])
    {
      if i > 0 {
        assert ([first] + out)[i] == out[i - 1];
        assert ([flag] + flags)[i] == flags[i - 1];
      }
    }
  }

  /** Between two spikes, the flags of the emitted feature events are exactly
      the lazily expired flag readings. */
  lemma {:induction false} ReplayReportsFlags(r: State, obs: seq<OrderBookView>, clocks: seq<real>)
    requires |obs| == |clocks|
    requires forall i :: 0 <= i < |obs| ==> Truthy(obs[i].midPrice)
    requires forall i :: 0 <= i < |obs| ==> "activity_spike" !in obs[i].nearPriceVolume
    requires "activity_spike" !in r.latestTradeAgg
    ensures
      var r' := Replay(r, obs, clocks);
      var flags := ActivityFlag.Flags(r.lastSpikeTs, r.ttl, clocks);
      && |r'.actions| == |r.actions| + |obs|
      && r'.actions[..|r.actions|] == r.actions
      && r'.lastSpikeTs == ActivityFlag.Held(r.lastSpikeTs, r.ttl, clocks)
      && forall i :: 0 <= i < |obs| ==> ReportsFlag(r'.actions[|r.actions|..][i], flags[i])
    decreases |obs|
  {
    if obs != [] {
      var n := |r.actions|;
      var r1 := HandleOrderbookUpdate(r, obs[0], clocks[0]);
      var c := ActivityFlag.Read(r.lastSpikeTs, r.ttl, clocks[0]);
      UpdateReportsFlag(r, obs[0], clocks[0]);
      ReplayReportsFlags(r1, obs[1..], clocks[1..]);
      var r' := Replay(r1, obs[1..], clocks[1..]);
      assert Replay(r, obs, clocks) == r';
      var rest := ActivityFlag.Flags(r1.lastSpikeTs, r1.ttl, clocks[1..]);
      assert ActivityFlag.Flags(r.lastSpikeTs, r.ttl, clocks) == [c.flag] + rest;
      SplitAfterPrefix(r'.actions, r1.actions, n);
      ConsReports(r1.actions[n], r'.actions[n + 1..], c.flag, rest);
    }
  }
}

=== FILE: trade_activity.dfy ===
/** The trade-activity anomaly detector: classifies one trade aggregate against
    four thresholds and, on detection, appends the spike event to an audit log
    before handing it to every registered callback in registration order. */
module TradeActivity {
  import opened Common

  /** Ratio reported when there is buy volume but no sell volume. */
  const NoSellSentinel: real := 1000000.0

  /** Constructor arguments of the analyzer. */
  datatype Config = Config(
    volumeThreshold: real,
    imbalanceRatioHigh: real,
    imbalanceRatioLow: real,
    spikeMultiplier: real,
    enableLogging: bool,
    savePath: string)

  /** The documented defaults. */
  const Defaults: Config := Config(10.0, 2.0, 0.5, 1.2, true, "activity_spikes.jsonl")

  /** One aggregate record; every entry may be missing from the dict. */
  datatype TradeAggregate = TradeAggregate(
    ts: Option<Value>,
    buyVolume: Option<real>,
    sellVolume: Option<real>,
    buyMean: Option<real>,
    sellMean: Option<real>,
    avgPrice: Option<Value>,
    tradeCount: Option<Value>)
  {
    function Buy(): real { buyVolume.GetOr(0.0) }
    function Sell(): real { sellVolume.GetOr(0.0) }
    function Total(): real { Buy() + Sell() }
    /** Baseline volume: the sum of the two moving averages. */
    function MaVolume(): real { buyMean.GetOr(0.0) + sellMean.GetOr(0.0) }
    /** The event time: the record's own `ts` (whatever it holds), else the
        wall clock. */
    function Stamp(clock: real): Value { ts.GetOr(Num(clock)) }
  }

  datatype Direction = Buy | Sell {
    function Name(): string {
      match this
      case Buy => "buy"
      case Sell => "sell"
    }
  }

  datatype Reason = Spike | Imbalance | VolumeExceeded {
    function Name(): string {
      match this
      case Spike => "spike"
      case Imbalance => "imbalance"
      case VolumeExceeded => "volume_exceeded"
    }
  }

  /** The record written to the audit log and passed to the callbacks. */
  datatype SpikeEvent = SpikeEvent(
    ts: Value,
    buyVolume: real,
    sellVolume: real,
    buySellRatio: real,
    avgPrice: Value,
    tradeCount: Value,
    maVolume: real,
    direction: Direction,
    reason: Reason)
  {
    const kind: string := "trade_activity_spike"
  }

  /** Analyzer state. `log` is what this analyzer appended to the audit file;
      callbacks are opaque identifiers of type C. */
  datatype Analyzer<C> = Analyzer(config: Config, callbacks: seq<C>, log: seq<SpikeEvent>)

  /** One observable side effect of `ProcessEvent`. */
  datatype Effect<C> = Appended(event: SpikeEvent) | Notified(callback: C, event: SpikeEvent)

  datatype Step<C> = Step(after: Analyzer<C>, effects: seq<Effect<C>>)

  /** `__init__`: the given thresholds, no callbacks, nothing appended yet. */
  function Init<C>(config: Config): (a: Analyzer<C>)
    ensures a.config == config && a.callbacks == [] && a.log == []
  {
    Analyzer(config, [], [])
  }

  /** Registers a callback behind all earlier ones. */
  function OnActivity<C>(a: Analyzer<C>, cb: C): (a': Analyzer<C>)
    ensures |a'.callbacks| == |a.callbacks| + 1
    ensures a'.callbacks[..|a.callbacks|] == a.callbacks && a'.callbacks[|a.callbacks|] == cb
    ensures a'.config == a.config && a'.log == a.log
  {
    a.(callbacks := a.callbacks + [cb])
  }

  /** Division compared with a bound, restated without division. */
  lemma DivAbove(a: real, b: real, c: real)
    requires b > 0.0
    ensures a / b > c <==> a > c * b
  {
    var q := a / b;
    assert q * b == a;
    if q > c {
      assert q * b > c * b;
    } else {
      assert q * b <= c * b;
    }
  }

  lemma DivBelow(a: real, b: real, c: real)
    requires b > 0.0
    ensures a / b < c <==> a < c * b
  {
    var q := a / b;
    assert q * b == a;
    if q < c {
      assert q * b < c * b;
    } else {
      assert q * b >= c * b;
    }
  }

  /** Buy/sell ratio with the sentinel for an empty sell side. */
  function BuySellRatio(buy: real, sell: real): (ratio: real)
    ensures sell > 0.0 ==> ratio * sell == buy
    ensures sell <= 0.0 ==> ratio == (if buy > 0.0 then NoSellSentinel else 1.0)
    ensures ratio > 1.0 <==> (if sell > 0.0 then buy > sell else buy > 0.0)
  {
    if sell > 0.0 then
      DivAbove(buy, sell, 1.0);
      buy / sell
    else if buy > 0.0 then NoSellSentinel
    else 1.0
  }

  /** Volume spike: the total exceeds `multiplier` times a positive baseline. */
  function IsSpike(total: real, ma: real, multiplier: real): (spike: bool)
    ensures spike <==> ma > 0.0 && total > multiplier * ma
  {
    if ma > 0.0 then DivAbove(total, ma, multiplier); total / ma > multiplier
    else false
  }

  /** The ratio lies outside the band [low, high]. */
  predicate IsImbalance(cfg: Config, ratio: real) {
    ratio > cfg.imbalanceRatioHigh || ratio < cfg.imbalanceRatioLow
  }

  function DirectionOf(ratio: real): (d: Direction)
    ensures d == Buy <==> ratio > 1.0
  {
    if ratio > 1.0 then Buy else Sell
  }

  /** The single recorded reason, by priority spike > imbalance > volume. */
  function ReasonOf(spike: bool, imbalance: bool): (r: Reason)
    ensures r == Spike <==> spike
    ensures r == Imbalance <==> !spike && imbalance
    ensures r == VolumeExceeded <==> !spike && !imbalance
  {
    if spike then Spike else if imbalance then Imbalance else VolumeExceeded
  }

  /** The pure part of `process_event`: the event emitted for `agg`, if any. */
  function Classify(cfg: Config, agg: TradeAggregate, clock: real): (r: Option<SpikeEvent>)
    ensures agg.Total() == 0.0 ==> r == None
    ensures r.Some? <==>
      && agg.Total() != 0.0
      && (|| (agg.MaVolume() > 0.0 && agg.Total() > cfg.spikeMultiplier * agg.MaVolume())
          || IsImbalance(cfg, BuySellRatio(agg.Buy(), agg.Sell()))
          || agg.Total() > cfg.volumeThreshold)
    ensures r.Some? ==>
      && r.value.ts == agg.Stamp(clock)
      && r.value.buyVolume == agg.Buy()
      && r.value.sellVolume == agg.Sell()
      && r.value.maVolume == agg.MaVolume()
      && r.value.avgPrice == agg.avgPrice.GetOr(Int(0))
      && r.value.tradeCount == agg.tradeCount.GetOr(Int(0))
      && (agg.Sell() > 0.0 ==> r.value.buySellRatio * agg.Sell() == agg.Buy())
      && (agg.Sell() <= 0.0 ==> r.value.buySellRatio == (if agg.Buy() > 0.0 then NoSellSentinel else 1.0))
    ensures r.Some? ==>
      (r.value.direction == Buy <==>
        (if agg.Sell() > 0.0 then agg.Buy() > agg.Sell() else agg.Buy() > 0.0))
    ensures r.Some? ==>
      && (r.value.reason == Spike <==>
            agg.MaVolume() > 0.0 && agg.Total() > cfg.spikeMultiplier * agg.MaVolume())
      && (r.value.reason == Imbalance <==>
            !(agg.MaVolume() > 0.0 && agg.Total() > cfg.spikeMultiplier * agg.MaVolume())
            && IsImbalance(cfg, r.value.buySellRatio))
  {
    var buy := agg.Buy();
    var sell := agg.Sell();
    var total := buy + sell;
    if total == 0.0 then None
    else
      var ma := agg.MaVolume();
      var spike := IsSpike(total, ma, cfg.spikeMultiplier);
      var ratio := BuySellRatio(buy, sell);
      var imbalance := IsImbalance(cfg, ratio);
      var exceeded := total > cfg.volumeThreshold;
      if spike || imbalance || exceeded then
        Some(SpikeEvent(
          agg.Stamp(clock), buy, sell, ratio,
          agg.avgPrice.GetOr(Int(0)), agg.tradeCount.GetOr(Int(0)),
          ma, DirectionOf(ratio), ReasonOf(spike, imbalance)))
      else None
  }

  /** One notification per callback, in registration order. */
  function Notifications<C>(cbs: seq<C>, e: SpikeEvent): (ns: seq<Effect<C>>)
    ensures |ns| == |cbs|
    ensures forall i :: 0 <= i < |cbs| ==> ns[i] == Notified(cbs[i], e)
  {
    if cbs == [] then [] else [Notified(cbs[0], e)] + Notifications(cbs[1..], e)
  }

  /** `process_event`: classify, then append to the log (when a path is set),
      then notify every callback. `clock` stands for `time.time()`. */
  function ProcessEvent<C>(a: Analyzer<C>, agg: TradeAggregate, clock: real): (s: Step<C>)
    ensures s.after.config == a.config && s.after.callbacks == a.callbacks
    ensures Classify(a.config, agg, clock).None? ==> s.after == a && s.effects == []
    ensures Classify(a.config, agg, clock).Some? ==>
      var e := Classify(a.config, agg, clock).value;
      var offset := if a.config.savePath != "" then 1 else 0;
      && |s.effects| == offset + |a.callbacks|
      && (a.config.savePath != "" ==> s.after.log == a.log + [e] && s.effects[0] == Appended(e))
      && (a.config.savePath == "" ==> s.after.log == a.log)
      && (forall i :: 0 <= i < |a.callbacks| ==> s.effects[offset + i] == Notified(a.callbacks[i], e))
    ensures forall i, j ::
      (0 <= i < |s.effects| && 0 <= j < |s.effects| && s.effects[i].Appended? && s.effects[j].Notified?) ==> i < j
  {
    match Classify(a.config, agg, clock)
    case None => Step(a, [])
    case Some(e) =>
      var ns := Notifications(a.callbacks, e);
      if a.config.savePath != "" then
        Step(a.(log := a.log + [e]), [Appended(e)] + ns)
      else
        Step(a, ns)
  }

  /** On detection every effect carries the detected event, and a callback
      is notified exactly when it is registered. */
  lemma StepCarriesEvent<C>(a: Analyzer<C>, agg: TradeAggregate, clock: real)
    requires Classify(a.config, agg, clock).Some?
    ensures
      var s := ProcessEvent(a, agg, clock);
      var e := Classify(a.config, agg, clock).value;
      && (forall i :: 0 <= i < |s.effects| ==> s.effects[i].event == e)
      && (forall cb :: Notified(cb, e) in s.effects <==> cb in a.callbacks)
  {
    var s := ProcessEvent(a, agg, clock);
    var e := Classify(a.config, agg, clock).value;
    EffectsShape(s.effects, if a.config.savePath != "" then 1 else 0, a.callbacks, e);
  }

  /** An optional append followed by one notification per callback. */
  lemma EffectsShape<C>(effects: seq<Effect<C>>, offset: nat, cbs: seq<C>, e: SpikeEvent)
    requires offset <= 1 && |effects| == offset + |cbs|
    requires offset == 1 ==> effects[0] == Appended(e)
    requires forall i :: 0 <= i < |cbs| ==> effects[offset + i] == Notified(cbs[i], e)
    ensures forall i :: 0 <= i < |effects| ==> effects[i].event == e
    ensures forall cb :: Notified(cb, e) in effects <==> cb in cbs
  {
    forall i | offset <= i < |effects|
      ensures effects[i] == Notified(cbs[i - offset], e)
    {
      assert effects[offset + (i - offset)] == Notified(cbs[i - offset], e);
    }
    forall cb | cb in cbs
      ensures Notified(cb, e) in effects
    {
      var k :| 0 <= k < |cbs| && cbs[k] == cb;
      assert effects[offset + k] == Notified(cb, e);
    }
  }
}

=== FILE: trade_activity_props.dfy ===
/** Properties of the trade-activity detector stated against independent
    reference definitions: the set of conditions that hold, a priority rank,
    and the thresholds rewritten without division. */
module TradeActivityProps {
  import opened Common
  import opened TradeActivity

  /** Priority of a reason: lower wins. */
  function Rank(r: Reason): nat {
    match r
    case Spike => 0
    case Imbalance => 1
    case VolumeExceeded => 2
  }

  /** Every detection condition that holds for `agg`, spike and imbalance
      written without division. */
  function Conditions(cfg: Config, agg: TradeAggregate): set<Reason> {
    var buy, sell := agg.Buy(), agg.Sell();
    var imbalanced :=
      if sell > 0.0 then buy > cfg.imbalanceRatioHigh * sell || buy < cfg.imbalanceRatioLow * sell
      else if buy > 0.0 then NoSellSentinel > cfg.imbalanceRatioHigh || NoSellSentinel < cfg.imbalanceRatioLow
      else 1.0 > cfg.imbalanceRatioHigh || 1.0 < cfg.imbalanceRatioLow;
    (if agg.MaVolume() > 0.0 && agg.Total() > cfg.spikeMultiplier * agg.MaVolume() then {Spike} else {})
    + (if imbalanced then {Imbalance} else {})
    + (if agg.Total() > cfg.volumeThreshold then {VolumeExceeded} else {})
  }

  /** The imbalance test on the ratio agrees with the division-free one. */
  lemma ImbalanceWithoutDivision(cfg: Config, agg: TradeAggregate)
    ensures IsImbalance(cfg, BuySellRatio(agg.Buy(), agg.Sell())) <==> Imbalance in Conditions(cfg, agg)
  {
    var buy, sell := agg.Buy(), agg.Sell();
    if sell > 0.0 {
      DivAbove(buy, sell, cfg.imbalanceRatioHigh);
      DivBelow(buy, sell, cfg.imbalanceRatioLow);
    }
  }

  /** An event is emitted exactly when the volume is non-zero and some
      condition holds, and its single reason is the highest-priority one. */
  lemma ClassifyPicksHighestPriority(cfg: Config, agg: TradeAggregate, clock: real)
    ensures Classify(cfg, agg, clock).Some? <==> agg.Total() != 0.0 && Conditions(cfg, agg) != {}
    ensures Classify(cfg, agg, clock).Some? ==>
      var reason := Classify(cfg, agg, clock).value.reason;
      && reason in Conditions(cfg, agg)
      && forall c :: c in Conditions(cfg, agg) ==> Rank(reason) <= Rank(c)
  {
    ImbalanceWithoutDivision(cfg, agg);
    var r := Classify(cfg, agg, clock);
    if r.Some? {
      var ratio := BuySellRatio(agg.Buy(), agg.Sell());
      assert r.value.buySellRatio == ratio by {
        if agg.Sell() > 0.0 {
          assert ratio * agg.Sell() == agg.Buy();
          assert r.value.buySellRatio * agg.Sell() == agg.Buy();
        }
      }
    }
  }

  /** Direction by volumes: "buy" exactly when buy exceeds a positive sell
      side, or there is buy volume and no sell volume. */
  lemma EqualVolumesReportSell(cfg: Config, agg: TradeAggregate, clock: real)
    requires agg.Buy() == agg.Sell()
    requires Classify(cfg, agg, clock).Some?
    ensures Classify(cfg, agg, clock).value.direction == Sell
  {
  }

  /** Ten trades of quantity 10, alternating sides, with no baseline: under
      the defaults the aggregate is reported once, for volume, as "sell", and
      the log grows by exactly that event before the callbacks run. */
  lemma BalancedBurstReportsVolume<C>(a: Analyzer<C>, clock: real)
    requires a.config == Defaults
    ensures
      var agg := TradeAggregate(Some(Num(7.0)), Some(50.0), Some(50.0), None, None, None, None);
      var s := ProcessEvent(a, agg, clock);
      && s.after.log == a.log + [SpikeEvent(Num(7.0), 50.0, 50.0, 1.0, Int(0), Int(0), 0.0, Sell, VolumeExceeded)]
      && s.effects[0] == Appended(s.after.log[|a.log|])
      && |s.effects| == 1 + |a.callbacks|
  {
    var agg := TradeAggregate(Some(Num(7.0)), Some(50.0), Some(50.0), None, None, None, None);
    assert BuySellRatio(50.0, 50.0) == 1.0 by {
      assert BuySellRatio(50.0, 50.0) * 50.0 == 50.0;
    }
  }

  /** No volume, no effect at all: the log is untouched and no callback runs. */
  lemma ZeroVolumeIsSilent<C>(a: Analyzer<C>, agg: TradeAggregate, clock: real)
    requires agg.Total() == 0.0
    ensures ProcessEvent(a, agg, clock) == Step(a, [])
  {
  }
}
